=== FILE: README.md ===
# Jet-algorithm event display: compositing and energy-flow rasterization

This project models the core of a program that draws one page per (event, jet algorithm). Each page shows which part of the rapidity × azimuth plane each jet claims. The model is written in Dafny and its properties are proved. For every working event the program does the following:

1. It asks the hard-scatter generator for an event and keeps it only if the call succeeded and the event holds exactly two resonances with status −62 (the W and the H).
2. It collects the event's final-state particles. They go into the hard-scatter list and into the clustering input.
3. It appends one ghost probe per histogram bin. A ghost has pT = 1e-100. The ghosts are added with the rapidity bin in the outer loop.
4. It overlays the final-state particles of `n_inel` pileup calls. A failed call is skipped.
5. For each enabled jet definition, in the key order of the definition table, it clusters the input and resets the energy-flow histogram. Then, for every retained jet, it adds the jet's pT to the bin of each ghost among its constituents. It derives the colour range `[pTmin_jet/4, 4 × largest bin]` and prints one page. The legend is drawn on the first page of each accepted event.

Modules, one file each:

- `kinematics.dfy` (`Kinematics`): the momentum seen by the clustering (`PseudoJet`: pT and histogram cell), the ghost constants and the ghost test.
- `events.dfy` (`Events`): particle records, the selections (`Select`), the pileup stream (`PileupFinals`) and the acceptance filter.
- `ghost_grid.dfy` (`GhostGrid`): the ghost grid as a specification (`Grid`) and as the nested loop that builds it (`AppendGhosts`).
- `composer.dfy` (`Composer`): the loops that fill `VH`, `ptcls_hs`, `ptcls_pu` and `stbl_ptcls`.
- `raster.dfy` (`Raster`): the accumulated flow (`Flow`) and its properties, plus the histogram as a class over an `array2<real>` with `Reset`, `Fill` and a maximum-bin search.
- `pages.dfy` (`Pages`): the jet-definition table, the per-event page loop with its `first` flag, and the whole run.

The event generators, the Poisson draw and the jet clustering are inputs:

- A hard-scatter call is an `Option<seq<Particle>>`.
- The pileup generator is a stream `nat -> Option<seq<Particle>>`, one entry per call. The stream is shared across events.
- The k-th Poisson draw is `poisson(k)`. It is only drawn for accepted events.
- The clustering is a function from the input and a jet definition to the retained jets.

Three points about the code that the model makes explicit:

- The legend goes on the first page of every accepted event. `first` is reset at the top of each event's loop over the definitions (main.cpp:178), so it is not drawn only on the very first page of the run (`Pages.Run`, `Pages.PagePlaced`).
- `TH2D::Fill` adds its weight to a bin; it does not overwrite the bin (main.cpp:189). The model accumulates (`Raster.Deposit`, `Raster.EnergyFlowHistogram.Fill`). If exactly one ghost constituent in the whole jet list lies in a bin, that bin holds the pT of the jet containing it (`Raster.FlowOfCoveringJet`). A bin covered by several ghosts holds the sum of their jets' pT.
- The definition table is a `std::map` keyed by label, so it is visited in key order. `#` sorts before `A` and `C`, so the kt page comes before the anti-kt page (`Pages.JetDefinitionsInKeyOrder`, and `Pages.DefaultJetDefinitions` for the program's own switches).

## Model

| member | source | states |
|---|---|---|
| `Kinematics.Ghost` | main.cpp:151-158 | a ghost probe has positive pT below the ghost cut of line 188, and it sits in the bin it was made for |
| `Events.Select` | main.cpp:127-133 | a selection is no longer than the event and holds only particles the test accepts |
| `Events.Momenta` | main.cpp:131 | the clustering input has one entry per selected particle, each the momentum of the particle at the same position |
| `Events.PileupFinals` | main.cpp:165-174 | the pileup list holds only final-state particles |
| `Events.SelectMembership` | main.cpp:129-133 | a particle is in `ptcls_hs` (`VH`) exactly when it is in the event and final (a status −62 resonance, final or not) |
| `Events.SelectAppend` | main.cpp:127-133 | selection distributes over concatenation, so the lists keep event order |
| `Events.SelectAllOrNone` | main.cpp:127-133 | an event that is all final is copied whole, and one with no final particle adds nothing |
| `Events.PileupMembership` | main.cpp:165-174 | a particle is a pileup particle exactly when it is final and belongs to a successful call inside this event's window of `n_inel` calls |
| `Events.PileupAllFailed` | main.cpp:165-166 | if every call in the window fails, no pileup particle is collected |
| `GhostGrid.Row` | main.cpp:154-159 | the inner loop adds one ghost per azimuth bin |
| `GhostGrid.Grid` | main.cpp:153-160 | the grid has exactly NyBins × NphiBins ghosts |
| `GhostGrid.RowAt` | main.cpp:154-158 | the j-th ghost of a row is the one for azimuth bin j + 1 |
| `GhostGrid.GridAt` | main.cpp:153-158 | the ghost of bin (iy, iphi) is at position (iy − 1)·NphiBins + (iphi − 1): every bin is covered, in iy-outer / iphi-inner order |
| `GhostGrid.GridEntries` | main.cpp:152-158 | every grid entry has pT 1e-100, passes the ghost test and lies inside the histogram |
| `GhostGrid.GridNoDuplicates` | main.cpp:153-158 | no two ghosts share a bin |
| `GhostGrid.AppendGhosts` | main.cpp:151-160 | the nested loop appends exactly the grid after the particles already in the input |
| `Composer.ClassifyParticle` | main.cpp:127-133 | a status −62 resonance is appended to `VH`; a final particle is appended to `ptcls_hs` and its momentum to `stbl_ptcls`; nothing else changes |
| `Composer.ClassifyHardScatter` | main.cpp:125-133 | one scan yields `VH` = the status −62 resonances, `ptcls_hs` = the final particles, and `stbl_ptcls` = their momenta in the same order |
| `Composer.OverlayCall` | main.cpp:166-173 | a failed pileup call adds nothing; a successful one appends its final particles to `ptcls_pu` and their momenta to `stbl_ptcls` |
| `Composer.OverlayPileup` | main.cpp:163-174 | exactly `n_inel` calls are made, and the result is the final particles of the successful ones in call order |
| `Composer.ComposeEvent` | main.cpp:121-174 | no output, and no pileup call, unless the hard-scatter call succeeded with exactly two bosons; otherwise the four lists are as above, `|stbl_ptcls| = |ptcls_hs| + NyBins·NphiBins + |ptcls_pu|`, and `n_inel = 0` gives no pileup |
| `Raster.DepositAppend` | main.cpp:187-190 | a jet's deposit into a bin splits over any split of its constituent list |
| `Raster.RealParticleDepositsNothing` | main.cpp:188 | a constituent above 1e-50 (a real particle) changes no bin, wherever it sits in the jet |
| `Raster.DepositByCount` | main.cpp:187-190 | a jet with no ghost in a bin adds nothing there; a jet with one ghost there adds its pT |
| `Raster.FlowAppend` | main.cpp:185-191 | the flow of two jet lists is the sum of their flows |
| `Raster.FlowOrderIndependent` | main.cpp:185-191 | two jet lists that are reorderings of each other (equal as multisets) fill every bin identically, so the raster does not depend on the order of the jets |
| `Raster.FlowUncovered` | main.cpp:183-191 | a bin whose ghost is in no retained jet stays zero |
| `Raster.CoverageAtLeast` | main.cpp:185-191 | the ghosts one jet holds in a bin are counted in the bin's coverage |
| `Raster.FlowOfCoveringJet` | main.cpp:185-191 | when exactly one ghost constituent of all jets lies in a bin, the bin holds the pT of the jet that contains it |
| `Raster.NoDoubleCountingBin` | main.cpp:185-191 | if no bin is covered twice, every bin is zero or the pT of one retained jet holding its ghost |
| `Raster.CoveringJet` | main.cpp:185-191 | a covered bin has a jet with a ghost in it |
| `Raster.EnergyFlowHistogram.constructor` | main.cpp:80-84 | the histogram has NyBins × NphiBins bins, all empty |
| `Raster.EnergyFlowHistogram.Reset` | main.cpp:183 | every bin is zero after a reset |
| `Raster.EnergyFlowHistogram.Fill` | main.cpp:189 | a fill adds its weight to its own bin and to no other; a fill outside the histogram changes no displayed bin |
| `Raster.EnergyFlowHistogram.FillJet` | main.cpp:187-190 | one jet's pass adds the jet's pT once per ghost constituent and skips the real particles |
| `Raster.EnergyFlowHistogram.FillJets` | main.cpp:185-191 | after all jets, each bin has grown by the flow of the jet list |
| `Raster.EnergyFlowHistogram.MaximumBin` | main.cpp:193 | the returned bin is inside the histogram and no bin holds more |
| `Raster.EnergyFlowHistogram.Rasterize` | main.cpp:183-193 | after a pass every bin equals the flow of this pass's jets alone, the range starts at `pTmin_jet/4`, and it ends at 4 × the largest bin content |
| `Pages.Entry` | main.cpp:110-115 | a switched-off algorithm contributes no table entry; a switched-on one contributes its definition |
| `Pages.JetDefinitions` | main.cpp:109-115 | each table entry carries its algorithm's label and R = 0.4, and the entries come in key order |
| `Pages.LabelOrder` | main.cpp:110-115 | the kt label sorts before the anti-kt label, which sorts before the Cambridge-Aachen label |
| `Pages.JetDefinitionsInKeyOrder` | main.cpp:109-115 | the driver visits the definitions in strictly increasing label order, the iteration order of the table |
| `Pages.DefaultJetDefinitions` | main.cpp:109-115 | with the switches the program sets (anti-kt and kt on, Cambridge-Aachen off) the table is the kt definition followed by the anti-kt definition |
| `Pages.JetDefinitionsEnabled` | main.cpp:109-115 | the table holds a definition for an algorithm exactly when its switch is on |
| `Pages.AppendBlock` | main.cpp:178-255 | appending an event's block of pages (legend on its first) to whole blocks keeps every page's label and legend in place |
| `Pages.ProcessEvent` | main.cpp:121-256 | one working event is kept exactly when it is accepted; a kept event makes `n_inel` pileup calls and yields one page per definition, labelled in table order with the legend on its first page; every page's colour range starts at `pTmin_jet/4` and ends at 4 × the largest bin of the raster of this event's composed input (its final particles' momenta, then the ghost grid, then its pileup momenta) clustered with that page's definition; a rejected one makes no call and yields no page |
| `Pages.RenderEvent` | main.cpp:178-256 | an accepted event yields one page per definition, in table order; the legend is on the first page only, and each page's colour range comes from its own pass |
| `Pages.Run` | main.cpp:118-258 | the run prints (accepted events) × (enabled definitions) pages; page i carries definition i mod n and has the legend exactly when i mod n = 0 |

## Left out

- Event generation (main.cpp:93-106, 121, 166) is not modelled. Events are given sequences of particle records, and a failed call is `None`. The generator settings and the `mu > 0` guard on initialising the pileup generator are not modelled either.
- The Poisson draw of `n_inel` (main.cpp:163) is random. The k-th draw is an input, `poisson(k)`.
- Jet clustering (main.cpp:180-181) is an input function. The pT cut at `pTmin_jet` and the pT ordering belong to the clustering library. The model takes no position on whether the jets really pass the cut.
- Floating-point kinematics are not modelled: rapidity, azimuth, `GetBinCenter`, `reset_momentum_PtYPhiM` and the coordinate-to-bin lookup inside `TH2D::Fill`. Every momentum carries the histogram cell its direction falls in. A ghost carries its own bin directly.
- Fills into ROOT's underflow and overflow bins are not stored. Those bins are neither drawn nor searched for the maximum.
- pT values are exact reals, not doubles.
- Rendering is not modelled: styles, canvas, markers, text, the legend drawing, the PDF (main.cpp:63-78, 85-90, 176-177, 196-253, 255, 261). A page records only its label, its colour range and whether the legend is drawn.
- The daughters of the two bosons are not modelled. They are used only for drawing text.
- Console output (main.cpp:120, 164, 262) is not modelled.
- The commented-out kinematic selection (main.cpp:137-148) is dead code.
- `Pages.Run` takes the algorithm switches as a parameter. The program fixes them as `Pages.DefaultSwitches` (main.cpp:49).
- `Raster.EnergyFlowHistogram.MaximumBin` is proved to return a largest bin. Which of several equal maxima ROOT returns is not stated, since only the bin's content is used.
- `Pages.RenderEvent` and `Pages.Run` do not tie the raster left in the histogram after the last pass to the pages. Each pass's content is stated by `Raster.EnergyFlowHistogram.Rasterize`.

=== FILE: composer.dfy ===
/**
 * The event composer: for one working event, collects the hard-scatter
 * particles and the two bosons, appends the ghost grid, then overlays the
 * final-state particles of n_inel pileup calls.
 */
module Composer {
  import opened Kinematics
  import opened Events
  import opened GhostGrid

  /**
   * The lists one accepted working event produces: the bosons (VH), the
   * hard-scatter and pileup final-state particles, and the clustering input.
   */
  datatype Composition = Composition(
    vh: seq<Particle>,
    hs: seq<Particle>,
    pu: seq<Particle>,
    stbl: seq<PseudoJet>)

  /** Sorts one hard-scatter particle into the boson list and the final-state lists. */
  method ClassifyParticle(p: Particle, vh: seq<Particle>, hs: seq<Particle>, stbl: seq<PseudoJet>)
    returns (vh': seq<Particle>, hs': seq<Particle>, stbl': seq<PseudoJet>)
    ensures vh' == vh + (if IsResonanceOfInterest(p) then [p] else [])
    ensures hs' == hs + (if IsFinal(p) then [p] else [])
    ensures stbl' == stbl + (if IsFinal(p) then [p.mom] else [])
  {
    vh', hs', stbl' := vh, hs, stbl;
    if p.isResonance && p.status == ResonanceStatus {
      vh' := vh' + [p];
    }
    if p.isFinal {
      stbl' := stbl' + [p.mom];
      hs' := hs' + [p];
    }
  }

  /** Scans the hard-scatter event once, sorting each particle into the boson and final-state lists. */
  method ClassifyHardScatter(event: seq<Particle>) returns (vh: seq<Particle>, hs: seq<Particle>, stbl: seq<PseudoJet>)
    ensures vh == Select(IsResonanceOfInterest, event)
    ensures hs == Select(IsFinal, event)
    ensures stbl == Momenta(hs)
  {
    vh, hs, stbl := [], [], [];
    var i := 0;
    while i < |event|
      invariant 0 <= i <= |event|
      invariant vh == Select(IsResonanceOfInterest, event[..i])
      invariant hs == Select(IsFinal, event[..i])
      invariant stbl == Momenta(hs)
    {
      var p := event[i];
      var vh', hs', stbl' := ClassifyParticle(p, vh, hs, stbl);
      assert vh' == Select(IsResonanceOfInterest, event[..i + 1]) && hs' == Select(IsFinal, event[..i + 1]) by {
        SelectPrefix(IsResonanceOfInterest, event, i);
        SelectPrefix(IsFinal, event, i);
      }
      assert stbl' == Momenta(hs') by {
        MomentaAppend(hs, if IsFinal(p) then [p] else []);
      }
      vh, hs, stbl := vh', hs', stbl';
      i := i + 1;
    }
    assert event[..|event|] == event;
  }

  /**
   * One pileup call: a failed call adds nothing, a successful one appends its
   * final-state particles to the pileup list and their momenta to the
   * clustering input.
   */
  method OverlayCall(sub: Option<seq<Particle>>, pu: seq<Particle>, stbl: seq<PseudoJet>)
    returns (puOut: seq<Particle>, stblOut: seq<PseudoJet>)
    ensures puOut == pu + SubEventFinals(sub)
    ensures stblOut == stbl + Momenta(SubEventFinals(sub))
  {
    puOut, stblOut := pu, stbl;
    if sub.None? {
      return;
    }
    var ev := sub.value;
    var i := 0;
    while i < |ev|
      invariant 0 <= i <= |ev|
      invariant puOut == pu + Select(IsFinal, ev[..i])
      invariant stblOut == stbl + Momenta(Select(IsFinal, ev[..i]))
    {
      var p := ev[i];
      ghost var before := Select(IsFinal, ev[..i]);
      if p.isFinal {
        stblOut := stblOut + [p.mom];
        puOut := puOut + [p];
      }
      assert Select(IsFinal, ev[..i + 1]) == before + (if p.isFinal then [p] else []) by {
        SelectPrefix(IsFinal, ev, i);
      }
      assert Momenta(Select(IsFinal, ev[..i + 1])) == Momenta(before) + (if p.isFinal then [p.mom] else []) by {
        MomentaAppend(before, if p.isFinal then [p] else []);
      }
      i := i + 1;
    }
    assert ev[..|ev|] == ev;
  }

  /**
   * Makes nInel pileup calls, starting at call number start; a failed call is
   * skipped without ending the loop.
   */
  method OverlayPileup(pileup: nat -> Option<seq<Particle>>, start: nat, nInel: nat, stbl: seq<PseudoJet>)
    returns (pu: seq<Particle>, stblOut: seq<PseudoJet>, calls: nat)
    ensures calls == nInel
    ensures pu == PileupFinals(pileup, start, nInel)
    ensures stblOut == stbl + Momenta(pu)
  {
    pu, stblOut, calls := [], stbl, 0;
    assert Momenta(pu) == [];
    while calls < nInel
      invariant 0 <= calls <= nInel
      invariant pu == PileupFinals(pileup, start, calls)
      invariant stblOut == stbl + Momenta(pu)
    {
      var sub := pileup(start + calls);
      PileupStep(pileup, start, calls);
      MomentaAppend(pu, SubEventFinals(sub));
      AppendAssoc(stbl, Momenta(pu), Momenta(SubEventFinals(sub)));
      pu, stblOut := OverlayCall(sub, pu, stblOut);
      calls := calls + 1;
    }
  }

  /**
   * One working event up to clustering. None when the hard-scatter call
   * failed or did not yield exactly two bosons; then no pileup call is made.
   * Otherwise exactly nInel pileup calls are made, from call number puStart.
   */
  method ComposeEvent(hard: Option<seq<Particle>>, ny: nat, nphi: nat,
                      pileup: nat -> Option<seq<Particle>>, puStart: nat, nInel: nat)
    returns (r: Option<Composition>, puCalls: nat)
    ensures r.None? <==> !Accepted(hard)
    ensures puCalls == if r.Some? then nInel else 0
    ensures r.Some? ==> r.value.vh == Select(IsResonanceOfInterest, hard.value) && |r.value.vh| == 2
    ensures r.Some? ==> r.value.hs == Select(IsFinal, hard.value)
    ensures r.Some? ==> r.value.pu == PileupFinals(pileup, puStart, nInel)
    ensures r.Some? ==> r.value.stbl == Momenta(r.value.hs) + Grid(ny, nphi) + Momenta(r.value.pu)
    ensures r.Some? ==> |r.value.stbl| == |r.value.hs| + ny * nphi + |r.value.pu|
    ensures r.Some? && nInel == 0 ==> r.value.pu == []
  {
    if hard.None? {
      return None, 0;
    }
    var vh, hs, stbl := ClassifyHardScatter(hard.value);
    if |vh| != 2 {
      return None, 0;
    }
    stbl := AppendGhosts(stbl, ny, nphi);
    var pu, calls;
    pu, stbl, calls := OverlayPileup(pileup, puStart, nInel, stbl);
    r, puCalls := Some(Composition(vh, hs, pu, stbl)), calls;
  }
}

=== FILE: events.dfy ===
/**
 * Particle records of the generated events and the selections made on them.
 *
 * The event generators are not modelled: a hard-scatter event is the sequence
 * of particle records that one successful call produced, and a failed call is
 * None. The pileup generator is a stream whose k-th entry is the outcome of
 * its k-th call.
 */
module Events {
  import opened Kinematics

  datatype Option<T> = None | Some(value: T)

  /** One particle record of an event. */
  datatype Particle = Particle(
    isFinal: bool,
    isResonance: bool,
    status: int,
    charge: int,
    mom: PseudoJet)

  /** The status code of the two bosons the display labels. */
  const ResonanceStatus: int := -62

  predicate IsFinal(p: Particle)
  {
    p.isFinal
  }

  /** A resonance with the status code of interest, final or not. */
  predicate IsResonanceOfInterest(p: Particle)
  {
    p.isResonance && p.status == ResonanceStatus
  }

  /** The particles of ps that keep accepts, in their order in ps. */
  function Select(keep: Particle -> bool, ps: seq<Particle>): (r: seq<Particle>)
    ensures |r| <= |ps|
    ensures forall p :: p in r ==> keep(p)
  {
    if ps == [] then []
    else Select(keep, ps[..|ps| - 1]) + (if keep(ps[|ps| - 1]) then [ps[|ps| - 1]] else [])
  }

  /** The four-momenta of ps, in order, as handed to the clustering. */
  function Momenta(ps: seq<Particle>): (r: seq<PseudoJet>)
    ensures |r| == |ps|
    ensures forall i :: 0 <= i < |ps| ==> r[i] == ps[i].mom
  {
    seq(|ps|, i requires 0 <= i < |ps| => ps[i].mom)
  }

  /** Selecting from the first i + 1 elements of ps is selecting from the first i, then ps[i] if it is kept. */
  lemma SelectPrefix(keep: Particle -> bool, ps: seq<Particle>, i: nat)
    requires i < |ps|
    ensures Select(keep, ps[..i + 1]) == Select(keep, ps[..i]) + (if keep(ps[i]) then [ps[i]] else [])
  {
    assert ps[..i + 1][..i] == ps[..i];
  }

  lemma MomentaAppend(a: seq<Particle>, b: seq<Particle>)
    ensures Momenta(a + b) == Momenta(a) + Momenta(b)
  {
  }

  /** Concatenation is associative; a proof hint for appending to the clustering input. */
  lemma AppendAssoc<T>(a: seq<T>, b: seq<T>, c: seq<T>)
    ensures (a + b) + c == a + (b + c)
  {
  }

  /** The final-state particles one pileup call contributes: none when the call failed. */
  function SubEventFinals(sub: Option<seq<Particle>>): seq<Particle>
  {
    match sub
    case None => []
    case Some(ev) => Select(IsFinal, ev)
  }

  /** The final-state particles of pileup calls start .. start + n - 1, in call order. */
  function PileupFinals(pileup: nat -> Option<seq<Particle>>, start: nat, n: nat): (r: seq<Particle>)
    ensures forall p :: p in r ==> p.isFinal
  {
    if n == 0 then []
    else PileupFinals(pileup, start, n - 1) + SubEventFinals(pileup(start + n - 1))
  }

  lemma PileupStep(pileup: nat -> Option<seq<Particle>>, start: nat, n: nat)
    ensures PileupFinals(pileup, start, n + 1) == PileupFinals(pileup, start, n) + SubEventFinals(pileup(start + n))
  {
  }

  /** A hard-scatter call is kept when it succeeded and holds exactly two resonances of interest. */
  predicate Accepted(hard: Option<seq<Particle>>)
  {
    hard.Some? && |Select(IsResonanceOfInterest, hard.value)| == 2
  }

  /** Selection keeps exactly the accepted particles of ps. */
  lemma {:induction false} SelectMembership(keep: Particle -> bool, ps: seq<Particle>, p: Particle)
    ensures p in Select(keep, ps) <==> p in ps && keep(p)
  {
    if ps != [] {
      var init := ps[..|ps| - 1];
      SelectMembership(keep, init, p);
      assert ps == init + [ps[|ps| - 1]];
    }
  }

  /** Selection distributes over concatenation, so it keeps the order of ps. */
  lemma {:induction false} SelectAppend(keep: Particle -> bool, a: seq<Particle>, b: seq<Particle>)
    ensures Select(keep, a + b) == Select(keep, a) + Select(keep, b)
  {
    if b != [] {
      var bInit := b[..|b| - 1];
      assert (a + b)[..|a + b| - 1] == a + bInit;
      SelectAppend(keep, a, bInit);
    } else {
      assert a + b == a;
    }
  }

  /** Selection of a sequence that keep accepts throughout is the identity, and of one it rejects throughout is empty. */
  lemma {:induction false} SelectAllOrNone(keep: Particle -> bool, ps: seq<Particle>)
    ensures (forall i :: 0 <= i < |ps| ==> keep(ps[i])) ==> Select(keep, ps) == ps
    ensures (forall i :: 0 <= i < |ps| ==> !keep(ps[i])) ==> Select(keep, ps) == []
  {
    if ps != [] {
      var init := ps[..|ps| - 1];
      assert forall i :: 0 <= i < |init| ==> init[i] == ps[i];
      SelectAllOrNone(keep, init);
      assert ps == init + [ps[|ps| - 1]];
    }
  }

  /** A pileup particle is a final-state particle of a successful call inside the window, and every such particle is a pileup particle. */
  lemma {:induction false} PileupMembership(pileup: nat -> Option<seq<Particle>>, start: nat, n: nat, p: Particle)
    ensures p in PileupFinals(pileup, start, n) <==>
      p.isFinal && exists k :: start <= k < start + n && pileup(k).Some? && p in pileup(k).value
  {
    if n > 0 {
      var init := PileupFinals(pileup, start, n - 1);
      var last := pileup(start + n - 1);
      PileupMembership(pileup, start, n - 1, p);
      assert PileupFinals(pileup, start, n) == init + SubEventFinals(last);
      if last.Some? {
        SelectMembership(IsFinal, last.value, p);
      }
      if p in SubEventFinals(last) {
        assert start <= start + n - 1 < start + n && last.Some? && p in last.value;
      }
      if p.isFinal && exists k :: start <= k < start + n && pileup(k).Some? && p in pileup(k).value {
        var k :| start <= k < start + n && pileup(k).Some? && p in pileup(k).value;
        if k == start + n - 1 {
          assert p in SubEventFinals(last);
        } else {
          assert p in init;
        }
      }
    }
  }

  /** When every call in the window fails, no pileup particle is collected. */
  lemma {:induction false} PileupAllFailed(pileup: nat -> Option<seq<Particle>>, start: nat, n: nat)
    requires forall k :: start <= k < start + n ==> pileup(k).None?
    ensures PileupFinals(pileup, start, n) == []
  {
    if n > 0 {
      PileupAllFailed(pileup, start, n - 1);
    }
  }
}

=== FILE: ghost_grid.dfy ===
/**
 * The ghost grid: one near-zero-pT probe per energy-flow histogram bin,
 * appended to the clustering input so that each jet's catchment area shows up
 * among its constituents.
 */
module GhostGrid {
  import opened Kinematics

  /** The ghosts of row iy, azimuth bins 1 .. n, in increasing azimuth. */
  function Row(iy: int, n: nat): (r: seq<PseudoJet>)
    ensures |r| == n
  {
    if n == 0 then [] else Row(iy, n - 1) + [Ghost(iy, n)]
  }

  /** The ghosts of rows 1 .. ny, each of nphi bins, rapidity bin outermost. */
  function Grid(ny: nat, nphi: nat): (g: seq<PseudoJet>)
    ensures |g| == ny * nphi
  {
    if ny == 0 then [] else Grid(ny - 1, nphi) + Row(ny, nphi)
  }

  lemma {:induction false} RowAt(iy: int, n: nat, j: nat)
    requires j < n
    ensures Row(iy, n)[j] == Ghost(iy, j + 1)
  {
    if j < n - 1 {
      RowAt(iy, n - 1, j);
    }
  }

  /** The ghost of bin (iy, iphi) sits at position (iy - 1) * nphi + (iphi - 1): rapidity-major order. */
  lemma {:induction false} GridAt(ny: nat, nphi: nat, iy: int, iphi: int)
    requires 1 <= iy <= ny && 1 <= iphi <= nphi
    ensures (iy - 1) * nphi + (iphi - 1) < |Grid(ny, nphi)|
    ensures Grid(ny, nphi)[(iy - 1) * nphi + (iphi - 1)] == Ghost(iy, iphi)
  {
    var prev := Grid(ny - 1, nphi);
    assert |prev| == (ny - 1) * nphi;
    if iy == ny {
      assert (iy - 1) * nphi + (iphi - 1) == |prev| + (iphi - 1);
      RowAt(ny, nphi, iphi - 1);
    } else {
      GridAt(ny - 1, nphi, iy, iphi);
    }
  }

  /** Every entry of the grid is a ghost of pT GhostPt whose bin lies in the histogram. */
  lemma {:induction false} GridEntries(ny: nat, nphi: nat, k: nat)
    requires k < |Grid(ny, nphi)|
    ensures Grid(ny, nphi)[k].pt == GhostPt && IsGhost(Grid(ny, nphi)[k])
    ensures InGrid(Grid(ny, nphi)[k].cell, ny, nphi)
  {
    var prev := Grid(ny - 1, nphi);
    if k < |prev| {
      GridEntries(ny - 1, nphi, k);
    } else {
      RowAt(ny, nphi, k - |prev|);
    }
  }

  /** No bin receives two ghosts. */
  lemma {:induction false} GridNoDuplicates(ny: nat, nphi: nat, k1: nat, k2: nat)
    requires k1 < k2 < |Grid(ny, nphi)|
    ensures Grid(ny, nphi)[k1].cell != Grid(ny, nphi)[k2].cell
  {
    var prev := Grid(ny - 1, nphi);
    if k2 < |prev| {
      GridNoDuplicates(ny - 1, nphi, k1, k2);
    } else if k1 < |prev| {
      GridEntries(ny - 1, nphi, k1);
      RowAt(ny, nphi, k2 - |prev|);
    } else {
      RowAt(ny, nphi, k1 - |prev|);
      RowAt(ny, nphi, k2 - |prev|);
    }
  }

  /**
   * Appends the ghost grid to the clustering input, one ghost per bin, with
   * the rapidity bin in the outer loop and the azimuth bin in the inner one.
   */
  method AppendGhosts(stbl: seq<PseudoJet>, ny: nat, nphi: nat) returns (out: seq<PseudoJet>)
    ensures out == stbl + Grid(ny, nphi)
  {
    out := stbl;
    var iy := 1;
    while iy <= ny
      invariant 1 <= iy <= ny + 1
      invariant out == stbl + Grid(iy - 1, nphi)
    {
      var iphi := 1;
      while iphi <= nphi
        invariant 1 <= iphi <= nphi + 1
        invariant out == stbl + Grid(iy - 1, nphi) + Row(iy, iphi - 1)
      {
        out := out + [Ghost(iy, iphi)];
        iphi := iphi + 1;
      }
      iy := iy + 1;
    }
  }
}

=== FILE: kinematics.dfy ===
/**
 * Momenta as the jet clustering and the energy-flow histogram see them.
 *
 * The floating-point kinematics (rapidity, azimuth, bin-centre coordinates and
 * the coordinate-to-bin lookup of the histogram) are abstracted away: every
 * four-momentum carries its transverse momentum and the histogram cell its
 * direction (y, phi) falls in. Cells are numbered from 1, as the histogram
 * numbers its bins; a cell outside 1..ny x 1..nphi stands for an underflow or
 * overflow bin.
 */
module Kinematics {

  /** A (rapidity bin, azimuth bin) pair of the energy-flow histogram. */
  datatype Cell = Cell(iy: int, iphi: int)

  /** A four-momentum handed to the clustering: its pT and its direction's cell. */
  datatype PseudoJet = PseudoJet(pt: real, cell: Cell)

  /** The transverse momentum given to every ghost probe. */
  const GhostPt: real := 1e-100

  /** A constituent whose pT does not exceed this is treated as a ghost. */
  const GhostCut: real := 1e-50

  /** The rasterizer's ghost test: a constituent is skipped when its pT exceeds GhostCut. */
  predicate IsGhost(c: PseudoJet)
  {
    c.pt <= GhostCut
  }

  /** The ghost probe placed at the centre of histogram bin (iy, iphi). */
  function Ghost(iy: int, iphi: int): (g: PseudoJet)
    ensures IsGhost(g) && g.pt > 0.0
    ensures g.pt < GhostCut
    ensures g.cell == Cell(iy, iphi)
  {
    PseudoJet(GhostPt, Cell(iy, iphi))
  }

  /** True when the cell is one of the histogram's displayed bins. */
  predicate InGrid(c: Cell, ny: int, nphi: int)
  {
    1 <= c.iy <= ny && 1 <= c.iphi <= nphi
  }
}

=== FILE: pages.dfy ===
/**
 * The per-event page driver: the table of enabled jet definitions, one
 * rasterization pass and one page per definition for every accepted event,
 * and the legend on the first page of each accepted event.
 *
 * The jet clustering is not modelled: it is a function from the clustering
 * input and a jet definition to the retained jets (already cut at the jet pT
 * threshold and sorted). Drawing is not modelled either; a page records what
 * the driver decides for it: its definition's label, the colour-scale range
 * and whether the legend is drawn.
 */
module Pages {
  import opened Kinematics
  import opened Events
  import opened Composer
  import opened Raster
  import GhostGrid

  datatype Algorithm = AntiKt | Kt | CambridgeAachen

  /** A jet definition: its display label, the algorithm and the radius R (E-scheme recombination). */
  datatype JetDefinition = JetDefinition(name: string, algorithm: Algorithm, radius: real)

  /** The three algorithm switches. */
  datatype Switches = Switches(doAntiKt: bool, doKt: bool, doCambridgeAachen: bool)

  /** One output page. */
  datatype Page = Page(name: string, zMin: real, zMax: real, legend: bool)

  /** The switches as the program sets them. */
  const DefaultSwitches := Switches(true, true, false)

  const Radius: real := 0.4
  const PTminJet: real := 25.0
  const NyBins: nat := 400 / 2
  const NphiBins: nat := 314 / 2

  /** The labels; the first two print R with six decimals, the third has it written in. */
  const AntiKtLabel: string := "Anti-#it{k_{t}} jets, #it{R} = 0.400000"
  const KtLabel: string := "#it{k_{t}} jets, #it{R} = 0.400000"
  const CambridgeAachenLabel: string := "Cambridge-Aachen jets,  #it{R} = 0.4"

  function LabelOf(alg: Algorithm): string
  {
    match alg
    case AntiKt => AntiKtLabel
    case Kt => KtLabel
    case CambridgeAachen => CambridgeAachenLabel
  }

  predicate Enabled(sw: Switches, alg: Algorithm)
  {
    match alg
    case AntiKt => sw.doAntiKt
    case Kt => sw.doKt
    case CambridgeAachen => sw.doCambridgeAachen
  }

  /** Strict character-by-character order on labels, the key order of the definition table. */
  predicate LabelBefore(a: string, b: string)
  {
    if b == [] then false
    else if a == [] then true
    else if a[0] != b[0] then a[0] < b[0]
    else LabelBefore(a[1..], b[1..])
  }

  /** The definition the table holds for alg. */
  function Definition(alg: Algorithm): JetDefinition
  {
    JetDefinition(LabelOf(alg), alg, Radius)
  }

  /** The table's entry for alg: its definition when the switch is on, nothing otherwise. */
  function Entry(on: bool, alg: Algorithm): (r: seq<JetDefinition>)
    ensures |r| == (if on then 1 else 0)
    ensures forall i :: 0 <= i < |r| ==> r[i] == Definition(alg)
  {
    if on then [Definition(alg)] else []
  }

  /** Position of alg in the label order of the table keys. */
  function KeyRank(alg: Algorithm): nat
  {
    match alg
    case Kt => 0
    case AntiKt => 1
    case CambridgeAachen => 2
  }

  /**
   * The table of jet definitions, in the order the driver visits it: the
   * table is keyed by label, so its entries come in label order.
   */
  function JetDefinitions(sw: Switches): (defs: seq<JetDefinition>)
    ensures forall i :: 0 <= i < |defs| ==> defs[i] == Definition(defs[i].algorithm)
    ensures forall i, j :: 0 <= i < j < |defs| ==> KeyRank(defs[i].algorithm) < KeyRank(defs[j].algorithm)
  {
    Entry(sw.doKt, Kt) + Entry(sw.doAntiKt, AntiKt) + Entry(sw.doCambridgeAachen, CambridgeAachen)
  }

  /** A lower key rank means an earlier label. */
  lemma LabelOrder(a: Algorithm, b: Algorithm)
    requires KeyRank(a) < KeyRank(b)
    ensures LabelBefore(LabelOf(a), LabelOf(b))
  {
    assert KtLabel[0] == '#' && AntiKtLabel[0] == 'A' && CambridgeAachenLabel[0] == 'C';
  }

  /** With the program's own switches the table holds kt, then anti-kt, and no Cambridge-Aachen entry. */
  lemma DefaultJetDefinitions()
    ensures JetDefinitions(DefaultSwitches) == [Definition(Kt), Definition(AntiKt)]
  {
  }

  /** The driver visits the definitions in strictly increasing label order. */
  lemma JetDefinitionsInKeyOrder(sw: Switches, i: nat, j: nat)
    requires i < j < |JetDefinitions(sw)|
    ensures LabelBefore(JetDefinitions(sw)[i].name, JetDefinitions(sw)[j].name)
  {
    var defs := JetDefinitions(sw);
    LabelOrder(defs[i].algorithm, defs[j].algorithm);
  }

  /** The table holds a definition for an algorithm exactly when that algorithm's switch is on. */
  lemma JetDefinitionsEnabled(sw: Switches, alg: Algorithm)
    ensures Enabled(sw, alg) <==> exists i :: 0 <= i < |JetDefinitions(sw)| && JetDefinitions(sw)[i].algorithm == alg
  {
    var defs := JetDefinitions(sw);
    var kt, akt := Entry(sw.doKt, Kt), Entry(sw.doAntiKt, AntiKt);
    match alg
    case Kt =>
      if sw.doKt { assert defs[0].algorithm == Kt; }
    case AntiKt =>
      if sw.doAntiKt { assert defs[|kt|].algorithm == AntiKt; }
    case CambridgeAachen =>
      if sw.doCambridgeAachen { assert defs[|kt| + |akt|].algorithm == CambridgeAachen; }
  }

  /** The number of working events that produce pages. */
  function AcceptedCount(events: seq<Option<seq<Particle>>>): nat
  {
    if events == [] then 0
    else AcceptedCount(events[..|events| - 1]) + (if Accepted(events[|events| - 1]) then 1 else 0)
  }

  /** Page i of a run with n definitions per event: its label and whether it opens an event. */
  ghost predicate PagePlaced(pages: seq<Page>, defs: seq<JetDefinition>, i: int)
    requires 0 <= i < |pages| && |defs| > 0
  {
    pages[i].name == defs[i % |defs|].name && pages[i].legend == (i % |defs| == 0)
  }

  /** Adding n does not change the remainder modulo n. */
  lemma ModAddN(y: nat, n: nat)
    requires n > 0
    ensures (y + n) % n == y % n
  {
    var q, r := y / n, y % n;
    var q', r' := (y + n) / n, (y + n) % n;
    assert y == n * q + r;
    assert y + n == n * q' + r';
    var k := q' - q - 1;
    assert n * k == r - r' by {
      assert n * q' == n * q + n * k + n;
    }
  }

  /** Position t of the block after a whole blocks of n pages is page t of its block. */
  lemma {:induction false} BlockIndex(a: nat, n: nat, t: nat)
    requires t < n
    ensures (a * n + t) % n == t
  {
    if a > 0 {
      BlockIndex(a - 1, n, t);
      var y := (a - 1) * n + t;
      assert a * n + t == y + n;
      ModAddN(y, n);
    }
  }

  /** Appending one event's block of pages to a run of whole blocks keeps every page in place. */
  lemma AppendBlock(pages: seq<Page>, block: seq<Page>, defs: seq<JetDefinition>, a: nat)
    requires |defs| > 0 && |pages| == a * |defs| && |block| == |defs|
    requires forall i :: 0 <= i < |pages| ==> PagePlaced(pages, defs, i)
    requires forall t :: 0 <= t < |block| ==> block[t].name == defs[t].name && block[t].legend == (t == 0)
    ensures |pages + block| == (a + 1) * |defs|
    ensures forall i :: 0 <= i < |pages + block| ==> PagePlaced(pages + block, defs, i)
  {
    var all := pages + block;
    forall i | 0 <= i < |all|
      ensures PagePlaced(all, defs, i)
    {
      if i < |pages| {
        assert PagePlaced(pages, defs, i);
      } else {
        BlockIndex(a, |defs|, i - |pages|);
      }
    }
  }

  /**
   * One accepted event's pages: for each jet definition in table order, one
   * rasterization pass and one page, the legend on the first page only.
   */
  method RenderEvent(defs: seq<JetDefinition>, cluster: (seq<PseudoJet>, JetDefinition) -> seq<Jet>,
                     stbl: seq<PseudoJet>, hist: EnergyFlowHistogram, pTminJet: real)
    returns (pages: seq<Page>)
    requires hist.Valid()
    modifies hist.bins
    ensures |pages| == |defs|
    ensures forall i :: 0 <= i < |defs| ==>
      pages[i].name == defs[i].name && pages[i].legend == (i == 0) && pages[i].zMin == pTminJet / 4.0 &&
      IsGridMax(cluster(stbl, defs[i]), hist.ny, hist.nphi, pages[i].zMax / 4.0)
  {
    pages := [];
    var first := true;
    for k := 0 to |defs|
      invariant |pages| == k && first == (k == 0)
      invariant forall i :: 0 <= i < k ==>
        pages[i].name == defs[i].name && pages[i].legend == (i == 0) && pages[i].zMin == pTminJet / 4.0 &&
        IsGridMax(cluster(stbl, defs[i]), hist.ny, hist.nphi, pages[i].zMax / 4.0)
    {
      var jets := cluster(stbl, defs[k]);
      var zMin, zMax := hist.Rasterize(jets, pTminJet);
      pages := pages + [Page(defs[k].name, zMin, zMax, first)];
      first := false;
    }
  }

  /**
   * One working event: compose it and, when it is accepted, render its block
   * of pages. Returns whether the event was kept, its block of pages (empty for
   * a rejected event), the number of pileup calls made and, as a ghost, the
   * clustering input every page of the block was rasterized from.
   */
  method ProcessEvent(hard: Option<seq<Particle>>, pileup: nat -> Option<seq<Particle>>, puStart: nat, nInel: nat,
                      defs: seq<JetDefinition>, cluster: (seq<PseudoJet>, JetDefinition) -> seq<Jet>,
                      hist: EnergyFlowHistogram)
    returns (kept: bool, block: seq<Page>, calls: nat, ghost stbl: seq<PseudoJet>)
    requires hist.Valid() && hist.ny == NyBins && hist.nphi == NphiBins
    modifies hist.bins
    ensures kept == Accepted(hard)
    ensures calls == if kept then nInel else 0
    ensures |block| == if kept then |defs| else 0
    ensures forall t :: 0 <= t < |block| ==> block[t].name == defs[t].name && block[t].legend == (t == 0)
    ensures kept ==> stbl == Momenta(Select(IsFinal, hard.value)) + GhostGrid.Grid(NyBins, NphiBins) +
                             Momenta(PileupFinals(pileup, puStart, nInel))
    ensures forall t :: 0 <= t < |block| ==>
      block[t].zMin == PTminJet / 4.0 && IsGridMax(cluster(stbl, defs[t]), NyBins, NphiBins, block[t].zMax / 4.0)
  {
    var composed;
    composed, calls := ComposeEvent(hard, NyBins, NphiBins, pileup, puStart, nInel);
    block, kept, stbl := [], composed.Some?, [];
    if composed.Some? {
      var input := composed.value.stbl;
      stbl := input;
      assert input == Momenta(Select(IsFinal, hard.value)) + GhostGrid.Grid(NyBins, NphiBins) +
                      Momenta(PileupFinals(pileup, puStart, nInel));
      block := RenderEvent(defs, cluster, input, hist, PTminJet);
    }
  }

  /**
   * The whole run: the hard-scatter calls in order, the pileup call stream,
   * the k-th Poisson draw poisson(k) taken for the k-th accepted event, the
   * switches and the clustering. Returns the pages in output order.
   */
  method Run(hardEvents: seq<Option<seq<Particle>>>, pileup: nat -> Option<seq<Particle>>, poisson: nat -> nat,
             sw: Switches, cluster: (seq<PseudoJet>, JetDefinition) -> seq<Jet>)
    returns (pages: seq<Page>)
    ensures |pages| == AcceptedCount(hardEvents) * |JetDefinitions(sw)|
    ensures |JetDefinitions(sw)| > 0 ==>
      forall i :: 0 <= i < |pages| ==> PagePlaced(pages, JetDefinitions(sw), i)
  {
    var hist := new EnergyFlowHistogram(NyBins, NphiBins);
    var defs := JetDefinitions(sw);
    pages := [];
    var accepted, puNext := 0, 0;
    for e := 0 to |hardEvents|
      invariant hist.Valid() && hist.ny == NyBins && hist.nphi == NphiBins
      invariant accepted == AcceptedCount(hardEvents[..e])
      invariant |pages| == accepted * |defs|
      invariant |defs| > 0 ==> forall i :: 0 <= i < |pages| ==> PagePlaced(pages, defs, i)
    {
      assert hardEvents[..e + 1][..e] == hardEvents[..e];
      var kept, block, calls, _ := ProcessEvent(hardEvents[e], pileup, puNext, poisson(accepted), defs, cluster, hist);
      puNext := puNext + calls;
      if kept {
        if |defs| > 0 {
          AppendBlock(pages, block, defs, accepted);
        }
        assert (accepted + 1) * |defs| == accepted * |defs| + |defs|;
        pages := pages + block;
        accepted := accepted + 1;
      }
    }
    assert hardEvents[..|hardEvents|] == hardEvents;
  }
}

=== FILE: raster.dfy ===
/**
 * The energy-flow rasterizer: the pT of every retained jet is accumulated
 * into the histogram bin of each ghost among its constituents, so that every
 * jet paints its catchment area with its own pT.
 */
module Raster {
  import opened Kinematics

  /** A retained jet as the clustering returns it: its pT and its constituents. */
  datatype Jet = Jet(pt: real, constituents: seq<PseudoJet>)

  /** What the constituents cs of a jet of transverse momentum pt add to cell: pt once per ghost in that cell. */
  function Deposit(pt: real, cs: seq<PseudoJet>, cell: Cell): real
  {
    if cs == [] then 0.0
    else
      var c := cs[|cs| - 1];
      Deposit(pt, cs[..|cs| - 1], cell) + (if IsGhost(c) && c.cell == cell then pt else 0.0)
  }

  /** The content of cell after filling a reset histogram with jets. */
  function Flow(jets: seq<Jet>, cell: Cell): real
  {
    if jets == [] then 0.0
    else
      var jet := jets[|jets| - 1];
      Flow(jets[..|jets| - 1], cell) + Deposit(jet.pt, jet.constituents, cell)
  }

  /** The number of ghosts in cell among cs. */
  function GhostCount(cs: seq<PseudoJet>, cell: Cell): nat
  {
    if cs == [] then 0
    else
      var c := cs[|cs| - 1];
      GhostCount(cs[..|cs| - 1], cell) + (if IsGhost(c) && c.cell == cell then 1 else 0)
  }

  /** The number of ghosts in cell over the constituents of all jets. */
  function Coverage(jets: seq<Jet>, cell: Cell): nat
  {
    if jets == [] then 0
    else Coverage(jets[..|jets| - 1], cell) + GhostCount(jets[|jets| - 1].constituents, cell)
  }

  /** m is the largest content of a displayed bin after filling with jets. */
  ghost predicate IsGridMax(jets: seq<Jet>, ny: int, nphi: int, m: real)
  {
    (forall iy, iphi :: 1 <= iy <= ny && 1 <= iphi <= nphi ==> Flow(jets, Cell(iy, iphi)) <= m) &&
    (exists iy, iphi :: 1 <= iy <= ny && 1 <= iphi <= nphi && Flow(jets, Cell(iy, iphi)) == m)
  }

  lemma {:induction false} DepositAppend(pt: real, a: seq<PseudoJet>, b: seq<PseudoJet>, cell: Cell)
    ensures Deposit(pt, a + b, cell) == Deposit(pt, a, cell) + Deposit(pt, b, cell)
  {
    if b == [] {
      assert a + b == a;
    } else {
      var bInit := b[..|b| - 1];
      assert (a + b)[..|a + b| - 1] == a + bInit;
      DepositAppend(pt, a, bInit, cell);
    }
  }

  /** A constituent above the ghost cut (a real particle) changes no bin, wherever it sits in the jet. */
  lemma {:induction false} RealParticleDepositsNothing(pt: real, a: seq<PseudoJet>, c: PseudoJet, b: seq<PseudoJet>, cell: Cell)
    requires c.pt > GhostCut
    ensures Deposit(pt, a + [c] + b, cell) == Deposit(pt, a + b, cell)
  {
    DepositAppend(pt, a + [c], b, cell);
    DepositAppend(pt, a, [c], cell);
    DepositAppend(pt, a, b, cell);
    assert Deposit(pt, [c], cell) == Deposit(pt, [], cell) + 0.0 by {
      assert [c][..0] == [];
    }
  }

  /** A jet with no ghost in cell adds nothing to it, and a jet with one ghost there adds its pT. */
  lemma {:induction false} DepositByCount(pt: real, cs: seq<PseudoJet>, cell: Cell)
    ensures GhostCount(cs, cell) == 0 ==> Deposit(pt, cs, cell) == 0.0
    ensures GhostCount(cs, cell) == 1 ==> Deposit(pt, cs, cell) == pt
  {
    if cs != [] {
      DepositByCount(pt, cs[..|cs| - 1], cell);
    }
  }

  lemma {:induction false} FlowAppend(a: seq<Jet>, b: seq<Jet>, cell: Cell)
    ensures Flow(a + b, cell) == Flow(a, cell) + Flow(b, cell)
  {
    if b == [] {
      assert a + b == a;
    } else {
      var bInit := b[..|b| - 1];
      assert (a + b)[..|a + b| - 1] == a + bInit;
      FlowAppend(a, bInit, cell);
    }
  }

  lemma MultisetCancel(m1: multiset<Jet>, m2: multiset<Jet>, x: Jet)
    requires m1 + multiset{x} == m2 + multiset{x}
    ensures m1 == m2
  {
    forall y
      ensures m1[y] == m2[y]
    {
      assert (m1 + multiset{x})[y] == (m2 + multiset{x})[y];
    }
  }

  /** The raster does not depend on the order in which the jets are filled: any reordering gives the same bins. */
  lemma {:induction false} FlowOrderIndependent(a: seq<Jet>, b: seq<Jet>, cell: Cell)
    requires multiset(a) == multiset(b)
    ensures Flow(a, cell) == Flow(b, cell)
    decreases |a|
  {
    if a == [] {
      assert |b| == |multiset(b)| == 0;
    } else {
      var x, aInit := a[|a| - 1], a[..|a| - 1];
      assert a == aInit + [x];
      assert x in multiset(b);
      var k :| 0 <= k < |b| && b[k] == x;
      var b1, b2 := b[..k], b[k + 1..];
      assert b == b1 + [x] + b2;
      assert multiset(aInit) == multiset(b1 + b2) by {
        assert multiset(a) == multiset(aInit) + multiset{x};
        assert multiset(b) == multiset(b1 + b2) + multiset{x} by {
          assert b == (b1 + b2)[..k] + [x] + (b1 + b2)[k..];
          assert b1 + b2 == (b1 + b2)[..k] + (b1 + b2)[k..];
        }
        MultisetCancel(multiset(aInit), multiset(b1 + b2), x);
      }
      FlowOrderIndependent(aInit, b1 + b2, cell);
      FlowAppend(aInit, [x], cell);
      FlowAppend(b1 + [x], b2, cell);
      FlowAppend(b1, [x], cell);
      FlowAppend(b1, b2, cell);
    }
  }

  /** A bin whose ghost is in no jet stays zero. */
  lemma {:induction false} FlowUncovered(jets: seq<Jet>, cell: Cell)
    requires Coverage(jets, cell) == 0
    ensures Flow(jets, cell) == 0.0
  {
    if jets != [] {
      FlowUncovered(jets[..|jets| - 1], cell);
      DepositByCount(jets[|jets| - 1].pt, jets[|jets| - 1].constituents, cell);
    }
  }

  lemma {:induction false} CoverageAtLeast(jets: seq<Jet>, k: nat, cell: Cell)
    requires k < |jets|
    ensures GhostCount(jets[k].constituents, cell) <= Coverage(jets, cell)
  {
    if k < |jets| - 1 {
      CoverageAtLeast(jets[..|jets| - 1], k, cell);
    }
  }

  /** When a bin's ghost is in exactly one jet, the bin holds exactly that jet's pT. */
  lemma {:induction false} FlowOfCoveringJet(jets: seq<Jet>, k: nat, cell: Cell)
    requires Coverage(jets, cell) == 1
    requires k < |jets| && GhostCount(jets[k].constituents, cell) > 0
    ensures Flow(jets, cell) == jets[k].pt
  {
    var init, last := jets[..|jets| - 1], jets[|jets| - 1];
    if k == |jets| - 1 {
      FlowUncovered(init, cell);
      DepositByCount(last.pt, last.constituents, cell);
    } else {
      CoverageAtLeast(init, k, cell);
      DepositByCount(last.pt, last.constituents, cell);
      FlowOfCoveringJet(init, k, cell);
    }
  }

  /** With no ghost in two jets, every bin is zero or the pT of one retained jet that holds its ghost. */
  lemma NoDoubleCountingBin(jets: seq<Jet>, cell: Cell)
    requires Coverage(jets, cell) <= 1
    ensures Flow(jets, cell) == 0.0 ||
      exists k :: 0 <= k < |jets| && GhostCount(jets[k].constituents, cell) > 0 && Flow(jets, cell) == jets[k].pt
  {
    if Coverage(jets, cell) == 0 {
      FlowUncovered(jets, cell);
    } else {
      var k := CoveringJet(jets, cell);
      FlowOfCoveringJet(jets, k, cell);
    }
  }

  /** The index of a jet holding a ghost in cell. */
  lemma {:induction false} CoveringJet(jets: seq<Jet>, cell: Cell) returns (k: nat)
    requires Coverage(jets, cell) > 0
    ensures k < |jets| && GhostCount(jets[k].constituents, cell) > 0
  {
    var init := jets[..|jets| - 1];
    if GhostCount(jets[|jets| - 1].constituents, cell) > 0 {
      k := |jets| - 1;
    } else {
      k := CoveringJet(init, cell);
    }
  }

  /**
   * The energy-flow histogram: ny rapidity bins by nphi azimuth bins, bin
   * (iy, iphi) stored at bins[iy - 1, iphi - 1].
   */
  class EnergyFlowHistogram {
    const ny: nat
    const nphi: nat
    const bins: array2<real>

    /** The cell whose content is stored at bins[i, j]. */
    static function BinOf(i: int, j: int): Cell
    {
      Cell(i + 1, j + 1)
    }

    ghost predicate Valid()
    {
      1 <= ny && 1 <= nphi && bins.Length0 == ny && bins.Length1 == nphi
    }

    /** A histogram of ny x nphi bins, all empty. */
    constructor (ny: nat, nphi: nat)
      requires 1 <= ny && 1 <= nphi
      ensures Valid() && this.ny == ny && this.nphi == nphi && fresh(bins)
      ensures forall i, j :: 0 <= i < ny && 0 <= j < nphi ==> bins[i, j] == 0.0
    {
      this.ny, this.nphi := ny, nphi;
      bins := new real[ny, nphi]((i, j) => 0.0);
    }

    /** Empties every bin. */
    method Reset()
      requires Valid()
      modifies bins
      ensures forall i, j :: 0 <= i < ny && 0 <= j < nphi ==> bins[i, j] == 0.0
    {
      forall i, j | 0 <= i < ny && 0 <= j < nphi {
        bins[i, j] := 0.0;
      }
    }

    /** Adds w to the bin of cell; a cell outside the displayed bins changes none of them. */
    method Fill(cell: Cell, w: real)
      requires Valid()
      modifies bins
      ensures forall i, j :: 0 <= i < ny && 0 <= j < nphi ==>
        bins[i, j] == old(bins[i, j]) + (if cell == BinOf(i, j) then w else 0.0)
    {
      if InGrid(cell, ny, nphi) {
        bins[cell.iy - 1, cell.iphi - 1] := bins[cell.iy - 1, cell.iphi - 1] + w;
      }
    }

    /** Adds jet's pT to the bin of each of its ghost constituents, skipping the real particles. */
    method FillJet(jet: Jet)
      requires Valid()
      modifies bins
      ensures forall i, j :: 0 <= i < ny && 0 <= j < nphi ==>
        bins[i, j] == old(bins[i, j]) + Deposit(jet.pt, jet.constituents, BinOf(i, j))
    {
      var cs := jet.constituents;
      var m := 0;
      assert cs[..0] == [];
      while m < |cs|
        invariant 0 <= m <= |cs|
        invariant forall i, j :: 0 <= i < ny && 0 <= j < nphi ==>
          bins[i, j] == old(bins[i, j]) + Deposit(jet.pt, cs[..m], BinOf(i, j))
      {
        var c := cs[m];
        assert cs[..m + 1][..m] == cs[..m];
        if c.pt <= GhostCut {
          Fill(c.cell, jet.pt);
        }
        m := m + 1;
      }
      assert cs[..|cs|] == cs;
    }

    /** Fills the histogram with every retained jet in turn. */
    method FillJets(jets: seq<Jet>)
      requires Valid()
      modifies bins
      ensures forall i, j :: 0 <= i < ny && 0 <= j < nphi ==>
        bins[i, j] == old(bins[i, j]) + Flow(jets, BinOf(i, j))
    {
      var k := 0;
      assert jets[..0] == [];
      while k < |jets|
        invariant 0 <= k <= |jets|
        invariant forall i, j :: 0 <= i < ny && 0 <= j < nphi ==>
          bins[i, j] == old(bins[i, j]) + Flow(jets[..k], BinOf(i, j))
      {
        assert jets[..k + 1][..k] == jets[..k];
        FillJet(jets[k]);
        k := k + 1;
      }
      assert jets[..|jets|] == jets;
    }

    /**
     * A bin of largest content among the displayed bins, scanning with the
     * rapidity bin innermost and keeping the first strict maximum.
     */
    method MaximumBin() returns (iy: int, iphi: int)
      requires Valid()
      ensures InGrid(Cell(iy, iphi), ny, nphi)
      ensures forall i, j :: 0 <= i < ny && 0 <= j < nphi ==> bins[i, j] <= bins[iy - 1, iphi - 1]
    {
      iy, iphi := 1, 1;
      var col := 0;
      while col < nphi
        invariant 0 <= col <= nphi
        invariant InGrid(Cell(iy, iphi), ny, nphi)
        invariant forall i, j :: 0 <= i < ny && 0 <= j < col ==> bins[i, j] <= bins[iy - 1, iphi - 1]
      {
        var row := 0;
        while row < ny
          invariant 0 <= row <= ny
          invariant InGrid(Cell(iy, iphi), ny, nphi)
          invariant forall i, j :: 0 <= i < ny && 0 <= j < col ==> bins[i, j] <= bins[iy - 1, iphi - 1]
          invariant forall i :: 0 <= i < row ==> bins[i, col] <= bins[iy - 1, iphi - 1]
        {
          if bins[row, col] > bins[iy - 1, iphi - 1] {
            iy, iphi := row + 1, col + 1;
          }
          row := row + 1;
        }
        col := col + 1;
      }
    }

    /**
     * One per-algorithm pass: reset, fill with the retained jets, and derive
     * the colour-scale range [pTminJet / 4, 4 * largest bin content].
     */
    method Rasterize(jets: seq<Jet>, pTminJet: real) returns (zMin: real, zMax: real)
      requires Valid()
      modifies bins
      ensures forall i, j :: 0 <= i < ny && 0 <= j < nphi ==> bins[i, j] == Flow(jets, BinOf(i, j))
      ensures zMin == pTminJet / 4.0
      ensures IsGridMax(jets, ny, nphi, zMax / 4.0)
    {
      Reset();
      FillJets(jets);
      var iy, iphi := MaximumBin();
      zMin := pTminJet / 4.0;
      zMax := bins[iy - 1, iphi - 1] * 4.0;
      assert BinOf(iy - 1, iphi - 1) == Cell(iy, iphi);
      forall y, phi | 1 <= y <= ny && 1 <= phi <= nphi
        ensures Flow(jets, Cell(y, phi)) <= zMax / 4.0
      {
        assert BinOf(y - 1, phi - 1) == Cell(y, phi);
      }
    }
  }
}
